=== FILE: README.md ===
# ShootMode game logic in Dafny

A model of the discrete game logic of `ShootMode`, the game mode of a small
cannon-versus-paddles arcade game. The player aims a cannon with the mouse and
fires a ball across a court. An AI-driven obstacle paddle costs health when the
ball touches it, and an AI-driven defender paddle scores a point when touched.
Missing through a side wall costs health. The game is lost at zero health and
won at `max_score` points.

The model is functional. The mode's state is one immutable `Game.State`
record: positions and velocities are `real`, counters and flags are `int`, and
the trail is a `seq`. Each part of the source becomes a pure function:

- `Physics.Update` is the per-frame step.
- `Events.HandleEvent` handles one input event as the source does;
  `Events.HandleEventCorrected` is the same with the restart fixed (see
  "## Findings").
- `Trail.Step` ages, extends and prunes the trail.
- `View.CourtToClip` and `View.ClipToCourt` are the draw pass's transforms.

Lemmas state the invariants these keep.

Modules:

- `Geometry`: vectors, clamping, rotation about a pivot.
- `Tuning`: the game's fixed constants as a `Config` record. The source
  initialises them in its header, which is not part of this model, so every
  operation takes them as a parameter. `FLT_EPSILON` is 2^-23 exactly.
- `Trail`: the ball trail.
- `View`: the court/clip transforms and the window-to-clip mouse mapping.
- `Game`: the state record, the constructor's trail set-up, and the invariant
  `Inv`. `Consistent` is the part of `Inv` that the source's own restart keeps;
  `Inv` adds "an idle ball is at rest", which only the corrected restart keeps.
- `Physics`: `update`, split into the source's stages. Paddle AI, clamp, Euler
  step, paddle collisions, top/bottom walls, side walls, terminal status, trail.
- `Events`: `handle_event` (aim, pause, quit, restart, new game, fire) and the
  state change made by `draw`.

Where the outside world enters, it enters as a parameter:

- Random AI draws: one `Physics.AiDraw` per paddle holds the sampled countdown
  and drift. The generator itself is not modelled.
- `cos`, `sin` and `atan`: the `Events.Trig` record of functions.
- Window and drawable sizes.
- The host's "no current mode" request: the `quit` flag of `Events.Handled`.

## Model

| member | source | states |
|---|---|---|
| Game.Construct | ShootMode.cpp:13-18 | the constructor replaces the trail with two samples at the ball, aged `trail_length` and 0, and changes nothing else |
| Game.ConstructEstablishesInv | ShootMode.cpp:15-18 | a freshly constructed mode with idle, unpaused initial flags and paddles in the court satisfies the game invariant |
| Trail.Initial | ShootMode.cpp:15-18 | the initial trail is two samples at the ball, the older aged exactly `trail_length`, ordered and non-negative |
| Trail.Dropped | ShootMode.cpp:325-329 | the pruning loop pops fewer samples than a non-empty trail holds; every popped sample had a successor older than `trail_length`; the second sample left is at most `trail_length` old |
| Trail.Prune | ShootMode.cpp:325-329 | pruning pops a prefix: the result is a suffix of the trail, non-empty when the trail is; every popped sample had a successor older than `trail_length` (so the new front is over age whenever anything was popped); the second sample left is at most `trail_length` old |
| Trail.Age | ShootMode.cpp:318-321 | aging keeps every sample's position and index and adds `elapsed` to each age |
| Trail.Step | ShootMode.cpp:318-329 | after a frame the trail is non-empty, ends with `(ball, 0)`, its second sample is within `trail_length`, its front is over age whenever a sample was popped, and every other kept sample is an older sample aged by `elapsed` |
| Trail.StepKeepsOrder | ShootMode.cpp:318-329 | with non-negative `elapsed`, a frame keeps the trail's ages non-increasing from front to back and non-negative |
| Trail.PrunedAgesBounded | ShootMode.cpp:325-329 | after pruning an ordered trail, only the front sample can be older than `trail_length` |
| Geometry.Clamp | ShootMode.cpp:240-245 | the max-then-min clamp lands in the interval when it is non-empty, leaves values already inside unchanged, sends a value below a non-empty interval to `lo` and one above it to `hi`, and returns the value or one of the bounds |
| Geometry.ClampIdempotent | ShootMode.cpp:240-245 | clamping twice is clamping once |
| Geometry.RotateAbout | ShootMode.cpp:122-136 | translate to the pivot, rotate, translate back: the pivot maps to itself and the zero rotation (cos 1, sin 0) is the identity |
| Geometry.RotateAboutPreservesDistance | ShootMode.cpp:122-136 | rotation about a pivot keeps every point's distance to the pivot when cos^2 + sin^2 = 1 |
| Geometry.RotateAboutInverse | ShootMode.cpp:122-136 | rotating back by the opposite angle restores the point |
| Geometry.RotateAboutFixesCenter | ShootMode.cpp:122-136 | the pivot is a fixed point of the rotation |
| Tuning.LoadedPosition | ShootMode.cpp:206-212 | the loaded ball position is on the centre line and strictly inside the left-wall miss line |
| Physics.SpeedMultiplier | ShootMode.cpp:217-220 | the AI speed multiplier is at most 10, at least 2 for a non-negative score, `2 + score/2` up to score 16 and exactly 10 from score 16 |
| Physics.SpeedMultiplierMonotone | ShootMode.cpp:217-220 | a higher score never slows the paddles |
| Physics.PaddleMove | ShootMode.cpp:216-235 | one AI move counts the timer down and redraws timer and drift when it falls below one frame, keeps the drift's magnitude, never drives towards a wall within the 0.3 margin, and moves y by speed x elapsed x drift |
| Physics.DriftAwayFromNearWall | ShootMode.cpp:230-233 | in a court with room for the 0.3 margin, the drift never points at a wall the paddle is near |
| Physics.RedrawInRange | ShootMode.cpp:222-229 | a redraw from in-range samples leaves the countdown in [2, 3.5] and the drift in [-1.25, 1.25] |
| Physics.MovePaddles | ShootMode.cpp:237-238 | the AI step moves each paddle, with its own countdown and drift, exactly as one `PaddleMove` on that paddle does, and changes nothing else |
| Physics.MovePaddlesAwayFromNearWalls | ShootMode.cpp:216-238 | in a court with room for the 0.3 margin, after the AI step neither paddle's drift points at a wall it is near, and each moved by speed x elapsed x its drift |
| Physics.ClampPaddles | ShootMode.cpp:240-245 | after the clamp both paddles satisfy `-court.y + r.y <= y <= court.y - r.y`, each paddle is clamped on its own: one already inside is untouched whatever the other does, and one outside goes to its nearest bound; x and everything else are kept |
| Physics.ResetBall | ShootMode.cpp:206-212 | a reset leaves the ball at the loaded position, at rest, not shooting, and changes nothing else |
| Physics.OverlapsIffNear | ShootMode.cpp:254-260 | the min/max box-overlap test holds exactly when the centres are within the summed half-extents on both axes, touching included |
| Physics.PaddleVsBall | ShootMode.cpp:254-272 | on overlap the ball is reset and the obstacle costs exactly one health while the defender adds exactly one point; without overlap nothing changes |
| Physics.TopBottomWalls | ShootMode.cpp:276-289 | the ball ends between the top and bottom walls, and a ball past a wall is put on that wall's surface; vy is only ever negated, and only when pointing into the wall crossed, so it never points into that wall; x and everything else are kept |
| Physics.SideWalls | ShootMode.cpp:290-303 | a ball past a side wall moving outward faster than epsilon costs one health and is reset; otherwise nothing changes |
| Physics.RestingBallNeverMisses | ShootMode.cpp:290-303 | a ball at rest against a side wall never counts as a miss |
| Physics.StatusTransition | ShootMode.cpp:305-314 | no health gives paused and lost; enough points gives paused and won, overriding lost; otherwise nothing changes |
| Physics.Advance | ShootMode.cpp:214-249 | after AI, clamp and the Euler step the ball is at `ball + elapsed * velocity`, paddles are where the AI move followed by the clamp puts them (AI timers and drifts included), so inside the court, and counters, flags and trail are kept |
| Physics.Resolve | ShootMode.cpp:251-314 | collisions lose at most one health and gain at most one point in a frame, keep the ball between top and bottom walls, keep an idle ball at rest, and pause a game that has ended; a frame with no paddle overlap and no miss keeps health, score, the shoot flag, the ball's x and the horizontal velocity, and a frame that ends no game keeps the pause and game flags |
| Physics.Update | ShootMode.cpp:198-330 | paused: nothing changes; otherwise paddles end in the court, the ball between the walls, health and score move by at most one, an ended game is paused with the right status, a game that did not end stays unpaused and playing, and the trail ends with the ball at age 0 |
| Physics.UpdateObstacleHit | ShootMode.cpp:254-272 | touching the obstacle paddle costs exactly one health and leaves the ball loaded, at rest and not shooting |
| Physics.UpdateDefenderHit | ShootMode.cpp:254-272 | touching only the defender paddle adds exactly one point, costs no health, and leaves the ball loaded and at rest |
| Physics.UpdatePreservesConsistent | ShootMode.cpp:198-330 | for non-negative `elapsed`, a frame keeps flag ranges, ended implies paused, paddles in court and an ordered non-empty trail, whatever the ball's velocity, so also after the as-written restart |
| Physics.UpdatePreservesInv | ShootMode.cpp:198-330 | for non-negative `elapsed`, a frame keeps the invariant: flag ranges, ended implies paused, idle implies at rest, paddles in court, and an ordered non-empty trail |
| Events.ClampElevation | ShootMode.cpp:151-153 | the aim angle is capped to [-max, max]; angles inside are kept; an angle above the limit becomes exactly the limit and one below its negative exactly the negative; the cap only moves an angle towards zero and never changes its sign |
| Events.Aim | ShootMode.cpp:140-155 | mouse motion changes only the cannon angle, never while paused, never unless the mouse is more than epsilon right of the cannon base; when unpaused and right of the base it sets the angle to the capped atan of the mouse's offset from the base, within the elevation limits |
| View.WindowToClip | ShootMode.cpp:141-145 | every pixel inside the window maps strictly inside the clip square |
| View.WindowToClipOrientation | ShootMode.cpp:141-145 | a pixel further right maps further right, and a pixel further down maps further down in clip space's "+y is up" |
| Events.Fire | ShootMode.cpp:181-192 | firing takes effect only when idle and unpaused; it sets shooting and a velocity of 20 along the cannon angle, and otherwise changes only the ball position |
| Events.FireFromMuzzleAtMuzzleSpeed | ShootMode.cpp:184-191 | a shot starts as far from the barrel pivot as the unrotated muzzle and moves at speed exactly 20 |
| Events.RestartAsWritten | ShootMode.cpp:164-176 | the restart as written gives full health, zero score, all flags 0, paddles at (0,0) and (court.x - 0.5, 0), the ball loaded and cannon angle 0; the velocity, the AI timers, the trail and the view are kept |
| Events.RestartAsWrittenPreservesConsistent | ShootMode.cpp:164-176 | the restart as written keeps flag ranges, ended implies paused, paddles in court and the trail; only "idle implies at rest" can break |
| Events.RestartAsWrittenKeepsFlight | ShootMode.cpp:164-176 | restarting as written from a pause mid-shot gives a ball marked idle that still moves: the invariant breaks, and the next frame's Euler step carries the ball away from the loaded position |
| Events.Restart | ShootMode.cpp:164-176 | the corrected restart differs from the as-written one only in stopping the ball: it gives full health, zero score, all flags 0, paddles at (0,0) and (court.x - 0.5, 0), the ball loaded and at rest, and cannon angle 0 |
| Events.RestartIdempotent | ShootMode.cpp:164-176 | the corrected restart twice is the corrected restart once |
| Events.RestartForgetsProgress | ShootMode.cpp:164-176 | the state after the corrected restart depends only on the AI timers, the trail and the view transform, not on the game in progress |
| Events.RestartPreservesInv | ShootMode.cpp:164-176 | the corrected restart keeps the whole game invariant, including idle implies at rest |
| Events.TogglePause | ShootMode.cpp:156-160 | Escape flips paused and unpaused while playing and does nothing once the game has ended |
| Events.TogglePauseTwice | ShootMode.cpp:156-160 | two Escapes restore the state |
| Events.HandleEvent | ShootMode.cpp:138-196 | as written: only Escape is consumed; quit is requested exactly for 'q' while paused and playing, or 'n' once ended; Escape is exactly `TogglePause`, mouse motion exactly `Aim` and the left button exactly `Fire`, so fire acts exactly when idle and unpaused; 'y' restarts as written exactly when ended or paused; other events change nothing |
| Events.RestartKeyIdempotent | ShootMode.cpp:164-177 | pressing 'y' twice leaves the same state as pressing it once |
| Events.HandleEventPreservesConsistent | ShootMode.cpp:138-196 | as written, every event keeps flag ranges, ended implies paused, paddles in court and the trail |
| Events.HandleEventPreservesInvUnlessMoving | ShootMode.cpp:138-196 | as written, an event keeps the whole invariant exactly unless it is a 'y' that restarts while the ball is moving |
| Events.HandleEventCorrected | ShootMode.cpp:138-196 | the corrected dispatcher agrees with the as-written one on every event, consumption and quit included, except that its 'y' restart also stops the ball |
| Events.HandleEventCorrectedPreservesInv | ShootMode.cpp:138-196 | with the corrected restart, every event keeps the whole game invariant |
| View.Aspect | ShootMode.cpp:518 | the aspect ratio is positive for a non-empty drawable and times the height gives the width |
| View.Scale | ShootMode.cpp:521-525 | the scale is at most both the width and the height bound and equals one of them; it is positive for a positive aspect |
| View.CourtToClip | ShootMode.cpp:527-535 | court-to-clip sends the scene centre to the clip origin and keeps both axes' directions (positive scales) |
| View.ClipToCourt | ShootMode.cpp:537-544 | clip-to-court sends the clip origin to the scene centre and keeps both axes' directions |
| View.CourtToClipMeaning | ShootMode.cpp:527-535 | court-to-clip maps x to (x - cx) * scale / aspect and y to (y - cy) * scale |
| View.ClipToCourtAfterCourtToClip | ShootMode.cpp:530-544 | clip-to-court undoes court-to-clip on every point |
| View.CourtToClipAfterClipToCourt | ShootMode.cpp:530-544 | court-to-clip undoes clip-to-court on every point |
| View.SceneFitsClip | ShootMode.cpp:507-535 | every point of the visible scene box lands inside [-1, 1]^2 |
| View.YScaleIndependentOfWidth | ShootMode.cpp:521-535 | when the scene height is the binding bound, windows of different aspect get the same y scale |
| Events.Draw | ShootMode.cpp:517-544 | draw changes only the stored clip-to-court transform, which inverts the court-to-clip transform it computes |

## Findings

| source | as written | input that shows it | evidently intended | confidence | as-written member | corrected member |
|---|---|---|---|---|---|---|
| ShootMode.cpp:164-176 | the 'y' restart puts the ball back at the loaded position and clears `shoot_flag`, but leaves `ball_velocity` as it was | pause with Escape while a shot is in flight (velocity (20, 0)), then press 'y': the ball is idle in the cannon with velocity (20, 0), and the next unpaused frame moves it towards the defender without a shot being fired | restart also zeroes the velocity, as `reset_ball` does for every other return of the ball to the cannon | medium, not executed | Events.RestartAsWritten, Events.RestartAsWrittenKeepsFlight, Events.HandleEventPreservesInvUnlessMoving | Events.Restart, Events.RestartPreservesInv, Events.HandleEventCorrectedPreservesInv |

## Left out

- OpenGL set-up, teardown, buffer upload and draw calls (ShootMode.cpp:20-120, 546-590): calls into the graphics API with no game behaviour.
- Vertex generation for rectangles, circles, the cannon and the score pips, trail interpolation and colour mixing (ShootMode.cpp:332-501): rendering output only.
- The Mersenne-twister generator seeded from the wall clock (ShootMode.cpp:203-204, 225-226): each paddle's redrawn countdown and drift are parameters instead.
- `cos`, `sin` and `atan` (ShootMode.cpp:150, 190-191): transcendental functions, supplied by the caller as `Events.Trig`. The rotation matrix is modelled, with its cosine and sine taken as inputs.
- Logging through `std::cout`: no effect on state.
- Floating-point rounding: all arithmetic is exact over `real`, and integer counters are unbounded `int`. The header declaring the counters' types is not part of this model.
- A zero-sized window or drawable: the source divides by it and gets infinities or NaN. `Events.Aim`, `View.WindowToClip` and `Events.Draw` require positive sizes instead.
- Events.Draw: also requires a court with non-negative half-extents, so that the scene has positive size and the scale can be inverted.
- Physics.Update: states the ball's top/bottom bound only when the ball fits between the walls (`ball_radius.y <= court_radius.y`). In a narrower court the source's second clamp wins and no bound holds.
- Aspect ratio: a wider window changes only the x scale only while the scene height is the binding bound. When the width binds, the y scale changes too. `View.YScaleIndependentOfWidth` states the property under that condition.

=== FILE: events.dfy ===
/**
 * Input handling (`handle_event`) and the part of the draw pass that feeds
 * back into it (the clip-to-court transform). Events are a small datatype;
 * asking the host to drop this mode is the `quit` flag of the result. The
 * transcendental functions the source calls (cos, sin, atan) are supplied by
 * the caller as a `Trig` record.
 */
module Events {
  import opened Geometry
  import opened Tuning
  import opened Game
  import View
  import Physics

  datatype Key = Escape | KeyQ | KeyY | KeyN | OtherKey(code: int)

  datatype Button = LeftButton | OtherButton(code: int)

  datatype Event =
    | MouseMotion(x: int, y: int)        // window pixels, top-left origin
    | KeyDown(key: Key)
    | MouseButtonDown(button: Button)
    | OtherEvent

  /** The new state, whether the event was consumed, and whether the mode asked to be dropped. */
  datatype Handled = Handled(state: State, consumed: bool, quit: bool)

  datatype Trig = Trig(cos: real -> real, sin: real -> real, atan: real -> real)

  /** cos^2 + sin^2 = 1 at angle a. */
  predicate Pythagorean(trig: Trig, a: real) {
    trig.cos(a) * trig.cos(a) + trig.sin(a) * trig.sin(a) == 1.0
  }

  // ----- aiming -----

  /** A positive angle is capped at `limit`, any other at `-limit`. */
  function ClampElevation(a: real, limit: real): (r: real)
    ensures limit >= 0.0 ==> -limit <= r <= limit
    ensures -limit <= a <= limit ==> r == a
    ensures a > 0.0 ==> r <= a
    ensures a <= 0.0 ==> a <= r
    ensures limit >= 0.0 && a > limit ==> r == limit
    ensures limit >= 0.0 && a < -limit ==> r == -limit
    ensures limit >= 0.0 ==> (a > 0.0 ==> r >= 0.0) && (a <= 0.0 ==> r <= 0.0)
  {
    if a > 0.0 then Min(a, limit) else Max(a, -limit)
  }

  /** The court point under the mouse, through the transform of the last draw. */
  function MouseInCourt(s: State, px: int, py: int, width: nat, height: nat): Vec2
    requires width > 0 && height > 0
  {
    s.clipToCourt.Apply(View.WindowToClip(px, py, width, height))
  }

  /**
   * Mouse motion: while unpaused, aim the cannon at the mouse, within the
   * elevation limits, provided the mouse is to the right of the cannon base
   * by more than epsilon.
   */
  function Aim(c: Config, s: State, px: int, py: int, width: nat, height: nat, trig: Trig): (r: State)
    requires width > 0 && height > 0
    ensures r.(cannonAngle := s.cannonAngle) == s
    ensures s.pauseFlag != 0 ==> r == s
    ensures MouseInCourt(s, px, py, width, height).x - c.cannonBase.x <= FltEpsilon ==> r == s
    ensures c.maxElevation >= 0.0 && r.cannonAngle != s.cannonAngle ==>
      -c.maxElevation <= r.cannonAngle <= c.maxElevation
    ensures var m := MouseInCourt(s, px, py, width, height);
      var dx := m.x - c.cannonBase.x;
      s.pauseFlag == 0 && dx > FltEpsilon ==>
        r.cannonAngle == ClampElevation(trig.atan((m.y - c.cannonBase.y) / dx), c.maxElevation)
  {
    if s.pauseFlag == 0 then
      var m := MouseInCourt(s, px, py, width, height);
      var dx := m.x - c.cannonBase.x;
      var dy := m.y - c.cannonBase.y;
      if dx > FltEpsilon then s.(cannonAngle := ClampElevation(trig.atan(dy / dx), c.maxElevation))
      else s
    else s
  }

  // ----- firing -----

  /** Where the ball sits in the unrotated barrel, before the barrel's rotation is applied. */
  function MuzzleRest(c: Config): Vec2 {
    Vec2(-c.court.x + c.barrelOffset + c.barrelLength - c.ballRadius.x, 0.0)
  }

  /**
   * Left button: if idle and unpaused, put the ball at the muzzle of the
   * rotated barrel and launch it along the cannon angle at muzzle speed.
   */
  function Fire(c: Config, s: State, trig: Trig): (r: State)
    ensures !(s.shootFlag == 0 && s.pauseFlag == 0) ==> r == s
    ensures s.shootFlag == 0 && s.pauseFlag == 0 ==>
      && r.shootFlag == 1
      && r.velocity == Vec2(MuzzleSpeed * trig.cos(s.cannonAngle), MuzzleSpeed * trig.sin(s.cannonAngle))
    ensures r.(ball := s.ball, velocity := s.velocity, shootFlag := s.shootFlag) == s
  {
    if s.shootFlag == 0 && s.pauseFlag == 0 then
      var co := trig.cos(s.cannonAngle);
      var si := trig.sin(s.cannonAngle);
      s.(shootFlag := 1,
         ball := RotateAbout(c.cannonBarrel, co, si, MuzzleRest(c)),
         velocity := Vec2(MuzzleSpeed * co, MuzzleSpeed * si))
    else s
  }

  /**
   * A shot starts at the muzzle, as far from the barrel pivot as the unrotated
   * muzzle is, and travels at exactly the muzzle speed.
   */
  lemma {:induction false} FireFromMuzzleAtMuzzleSpeed(c: Config, s: State, trig: Trig)
    requires s.shootFlag == 0 && s.pauseFlag == 0
    requires Pythagorean(trig, s.cannonAngle)
    ensures var r := Fire(c, s, trig);
      && SqDist(r.ball, c.cannonBarrel) == SqDist(MuzzleRest(c), c.cannonBarrel)
      && SqDist(r.velocity, Zero) == MuzzleSpeed * MuzzleSpeed
  {
    var co := trig.cos(s.cannonAngle);
    var si := trig.sin(s.cannonAngle);
    RotateAboutPreservesDistance(c.cannonBarrel, co, si, MuzzleRest(c));
    calc {
      SqDist(Vec2(MuzzleSpeed * co, MuzzleSpeed * si), Zero);
      (MuzzleSpeed * co) * (MuzzleSpeed * co) + (MuzzleSpeed * si) * (MuzzleSpeed * si);
      MuzzleSpeed * MuzzleSpeed * (co * co + si * si);
      MuzzleSpeed * MuzzleSpeed;
    }
  }

  // ----- restart -----

  /**
   * The 'y' key's reset exactly as the source writes it: counters, flags,
   * paddles, ball position and cannon angle, but not the ball's velocity.
   */
  function RestartAsWritten(c: Config, s: State): (r: State)
    ensures r.health == c.maxHealth && r.score == 0
    ensures r.pauseFlag == 0 && r.shootFlag == 0 && r.gameFlag == 0
    ensures r.ball == LoadedPosition(c) && r.cannonAngle == 0.0
    ensures r.leftPaddle == Vec2(0.0, 0.0) && r.rightPaddle == Vec2(c.court.x - 0.5, 0.0)
    ensures r.(health := s.health, score := s.score, pauseFlag := s.pauseFlag,
               shootFlag := s.shootFlag, gameFlag := s.gameFlag, ball := s.ball,
               cannonAngle := s.cannonAngle, leftPaddle := s.leftPaddle,
               rightPaddle := s.rightPaddle) == s
  {
    s.(score := 0, health := c.maxHealth, pauseFlag := 0, shootFlag := 0, gameFlag := 0,
       leftPaddle := Vec2(0.0, 0.0), rightPaddle := Vec2(c.court.x - 0.5, 0.0),
       ball := LoadedPosition(c), cannonAngle := 0.0)
  }

  /**
   * As written, restarting from a pause in mid-shot leaves a ball that is idle
   * (not shooting, in the cannon) but still moving: the next frame carries it
   * off without a shot being fired.
   */
  lemma {:induction false} RestartAsWrittenKeepsFlight(c: Config, s: State, elapsed: real,
                                                       leftDraw: Physics.AiDraw, rightDraw: Physics.AiDraw)
    requires Valid(c) && Inv(c, s) && s.shootFlag == 1 && s.velocity != Zero
    requires elapsed > 0.0
    ensures !Inv(c, RestartAsWritten(c, s))
    ensures var r := RestartAsWritten(c, s);
      && r.shootFlag == 0
      && Physics.Advance(c, r, elapsed, leftDraw, rightDraw).ball != LoadedPosition(c)
  {
    var r := RestartAsWritten(c, s);
    var moved := Physics.Advance(c, r, elapsed, leftDraw, rightDraw).ball;
    if s.velocity.x != 0.0 {
      NonZeroProduct(elapsed, s.velocity.x);
      assert moved.x != LoadedPosition(c).x;
    } else {
      NonZeroProduct(elapsed, s.velocity.y);
      assert moved.y != LoadedPosition(c).y;
    }
  }

  /**
   * What the as-written restart does keep: everything in the invariant except
   * "an idle ball is at rest".
   */
  lemma RestartAsWrittenPreservesConsistent(c: Config, s: State)
    requires Valid(c) && Consistent(c, s)
    ensures Consistent(c, RestartAsWritten(c, s))
  {
  }

  lemma NonZeroProduct(a: real, b: real)
    requires a != 0.0 && b != 0.0
    ensures a * b != 0.0
  {
  }

  /** The corrected restart: as written, and the ball at rest. */
  function Restart(c: Config, s: State): (r: State)
    ensures r.health == c.maxHealth && r.score == 0
    ensures r.pauseFlag == 0 && r.shootFlag == 0 && r.gameFlag == 0
    ensures r.ball == LoadedPosition(c) && r.velocity == Zero && r.cannonAngle == 0.0
    ensures r.leftPaddle == Vec2(0.0, 0.0) && r.rightPaddle == Vec2(c.court.x - 0.5, 0.0)
    ensures r.trail == s.trail && r.clipToCourt == s.clipToCourt
    ensures r.leftAiOffsetUpdate == s.leftAiOffsetUpdate && r.leftAiOffset == s.leftAiOffset
    ensures r.rightAiOffsetUpdate == s.rightAiOffsetUpdate && r.rightAiOffset == s.rightAiOffset
    ensures r.(velocity := s.velocity) == RestartAsWritten(c, s)
  {
    RestartAsWritten(c, s).(velocity := Zero)
  }

  /** Restart forgets the game in progress: only the AI timers, the trail and the view survive. */
  lemma RestartForgetsProgress(c: Config, s: State, t: State)
    requires s.(ball := t.ball, velocity := t.velocity, leftPaddle := t.leftPaddle,
                rightPaddle := t.rightPaddle, health := t.health, score := t.score,
                pauseFlag := t.pauseFlag, shootFlag := t.shootFlag, gameFlag := t.gameFlag,
                cannonAngle := t.cannonAngle) == t
    ensures Restart(c, s) == Restart(c, t)
  {
  }

  lemma RestartIdempotent(c: Config, s: State)
    ensures Restart(c, Restart(c, s)) == Restart(c, s)
  {
  }

  /** The corrected restart keeps the game invariant. */
  lemma RestartPreservesInv(c: Config, s: State)
    requires Valid(c) && Inv(c, s)
    ensures Inv(c, Restart(c, s))
  {
  }

  // ----- dispatch -----

  /** Escape toggles pause, but only while the game is still being played. */
  function TogglePause(s: State): (r: State)
    ensures s.gameFlag != 0 ==> r == s
    ensures s.gameFlag == 0 ==> (r.pauseFlag == 0 <==> s.pauseFlag != 0)
    ensures r.(pauseFlag := s.pauseFlag) == s
  {
    if s.gameFlag == 0 then s.(pauseFlag := if s.pauseFlag == 0 then 1 else 0) else s
  }

  lemma TogglePauseTwice(s: State)
    requires s.pauseFlag in {0, 1}
    ensures TogglePause(TogglePause(s)) == s
  {
  }

  /**
   * `handle_event` as the source writes it: one event against the state, in
   * the source's order of tests, with the 'y' key's restart leaving the ball's
   * velocity alone.
   */
  function HandleEvent(c: Config, s: State, evt: Event, width: nat, height: nat, trig: Trig): (r: Handled)
    requires evt.MouseMotion? ==> width > 0 && height > 0
    ensures r.consumed <==> evt == KeyDown(Escape)
    ensures r.quit <==>
      || (evt == KeyDown(KeyQ) && s.gameFlag == 0 && s.pauseFlag == 1)
      || (evt == KeyDown(KeyN) && s.gameFlag != 0)
    ensures evt == MouseButtonDown(LeftButton) ==>
      (r.state != s <==> s.shootFlag == 0 && s.pauseFlag == 0)
    ensures evt == KeyDown(KeyY) ==>
      r.state == (if s.gameFlag != 0 || s.pauseFlag == 1 then RestartAsWritten(c, s) else s)
    ensures evt.KeyDown? && evt.key in {KeyQ, KeyN} ==> r.state == s
    ensures evt == KeyDown(Escape) ==> r.state == TogglePause(s)
    ensures evt.MouseMotion? ==> r.state == Aim(c, s, evt.x, evt.y, width, height, trig)
    ensures evt == MouseButtonDown(LeftButton) ==> r.state == Fire(c, s, trig)
    ensures (|| evt == OtherEvent
             || (evt.KeyDown? && evt.key.OtherKey?)
             || (evt.MouseButtonDown? && evt.button.OtherButton?)) ==> r == Handled(s, false, false)
    ensures r.state.gameFlag == s.gameFlag || r.state.gameFlag == 0
  {
    match evt
    case MouseMotion(px, py) => Handled(Aim(c, s, px, py, width, height, trig), false, false)
    case KeyDown(Escape) => Handled(TogglePause(s), true, false)
    case KeyDown(KeyQ) => Handled(s, false, s.gameFlag == 0 && s.pauseFlag == 1)
    case KeyDown(KeyY) =>
      Handled(if s.gameFlag != 0 || s.pauseFlag == 1 then RestartAsWritten(c, s) else s, false, false)
    case KeyDown(KeyN) => Handled(s, false, s.gameFlag != 0)
    case KeyDown(OtherKey(_)) => Handled(s, false, false)
    case MouseButtonDown(LeftButton) => Handled(Fire(c, s, trig), false, false)
    case MouseButtonDown(OtherButton(_)) => Handled(s, false, false)
    case OtherEvent => Handled(s, false, false)
  }

  /** Pressing 'y' twice in a row leaves the same state as pressing it once. */
  lemma RestartKeyIdempotent(c: Config, s: State, width: nat, height: nat, trig: Trig)
    ensures var once := HandleEvent(c, s, KeyDown(KeyY), width, height, trig).state;
      HandleEvent(c, once, KeyDown(KeyY), width, height, trig).state == once
  {
  }

  /** As written, every event keeps the consistency part of the invariant. */
  lemma {:induction false} HandleEventPreservesConsistent(c: Config, s: State, evt: Event,
                                                          width: nat, height: nat, trig: Trig)
    requires Valid(c) && Consistent(c, s)
    requires evt.MouseMotion? ==> width > 0 && height > 0
    ensures Consistent(c, HandleEvent(c, s, evt, width, height, trig).state)
  {
    match evt
    case KeyDown(KeyY) =>
      if s.gameFlag != 0 || s.pauseFlag == 1 {
        RestartAsWrittenPreservesConsistent(c, s);
      }
    case _ =>
  }

  /**
   * As written, every event keeps the whole invariant except a 'y' that
   * restarts a game whose ball is still moving.
   */
  lemma {:induction false} HandleEventPreservesInvUnlessMoving(c: Config, s: State, evt: Event,
                                                               width: nat, height: nat, trig: Trig)
    requires Valid(c) && Inv(c, s)
    requires evt.MouseMotion? ==> width > 0 && height > 0
    ensures Inv(c, HandleEvent(c, s, evt, width, height, trig).state) <==>
      !(evt == KeyDown(KeyY) && (s.gameFlag != 0 || s.pauseFlag == 1) && s.velocity != Zero)
  {
    match evt
    case KeyDown(KeyY) =>
      if s.gameFlag != 0 || s.pauseFlag == 1 {
        RestartAsWrittenPreservesConsistent(c, s);
      }
    case _ =>
  }

  /**
   * `handle_event` with the corrected restart: the same as the source's for
   * every event, except that a 'y' restart also stops the ball.
   */
  function HandleEventCorrected(c: Config, s: State, evt: Event, width: nat, height: nat, trig: Trig): (r: Handled)
    requires evt.MouseMotion? ==> width > 0 && height > 0
    ensures evt != KeyDown(KeyY) ==> r == HandleEvent(c, s, evt, width, height, trig)
    ensures evt == KeyDown(KeyY) ==>
      r.state == (if s.gameFlag != 0 || s.pauseFlag == 1 then Restart(c, s) else s)
    ensures var w := HandleEvent(c, s, evt, width, height, trig);
      && r.consumed == w.consumed && r.quit == w.quit
      && r.state.(velocity := w.state.velocity) == w.state
  {
    if evt == KeyDown(KeyY) then
      Handled(if s.gameFlag != 0 || s.pauseFlag == 1 then Restart(c, s) else s, false, false)
    else HandleEvent(c, s, evt, width, height, trig)
  }

  /** With the corrected restart, every event keeps the whole game invariant. */
  lemma {:induction false} HandleEventCorrectedPreservesInv(c: Config, s: State, evt: Event,
                                                            width: nat, height: nat, trig: Trig)
    requires Valid(c) && Inv(c, s)
    requires evt.MouseMotion? ==> width > 0 && height > 0
    ensures Inv(c, HandleEventCorrected(c, s, evt, width, height, trig).state)
  {
    if evt == KeyDown(KeyY) {
      if s.gameFlag != 0 || s.pauseFlag == 1 {
        RestartPreservesInv(c, s);
      }
    } else {
      HandleEventPreservesInvUnlessMoving(c, s, evt, width, height, trig);
    }
  }

  // ----- the draw pass's transform -----

  /**
   * The state change of `draw`: it recomputes the court-to-clip transform for
   * the drawable size and stores the inverse for the next mouse event.
   */
  function Draw(c: Config, s: State, width: nat, height: nat): (r: State)
    requires width > 0 && height > 0
    requires View.CourtShape(c.court)
    ensures r.(clipToCourt := s.clipToCourt) == s
    ensures forall p :: r.clipToCourt.Apply(CourtToClipOf(c, width, height).Apply(p)) == p
  {
    var aspect := View.Aspect(width, height);
    var r := s.(clipToCourt := View.ClipToCourt(c.court, aspect));
    assert forall p :: r.clipToCourt.Apply(CourtToClipOf(c, width, height).Apply(p)) == p by {
      forall p {
        View.ClipToCourtAfterCourtToClip(c.court, aspect, p);
      }
    }
    r
  }

  /** The court-to-clip transform `draw` uploads for a drawable size. */
  function CourtToClipOf(c: Config, width: nat, height: nat): View.Affine2
    requires width > 0 && height > 0
    requires View.CourtShape(c.court)
  {
    View.CourtToClip(c.court, View.Aspect(width, height))
  }
}

=== FILE: game.dfy ===
/**
 * The mutable state of the shoot mode, as one immutable record, and the
 * invariant every operation on it preserves.
 */
module Game {
  import opened Geometry
  import opened Tuning
  import Trail
  import View

  datatype State = State(
    ball: Vec2,
    velocity: Vec2,
    leftPaddle: Vec2,           // the obstacle: touching it costs health
    rightPaddle: Vec2,          // the defender: touching it scores
    leftAiOffsetUpdate: real,   // countdown until the left paddle's drift is redrawn
    leftAiOffset: real,         // drift of the left paddle
    rightAiOffsetUpdate: real,
    rightAiOffset: real,
    health: int,
    score: int,
    pauseFlag: int,             // nonzero: paused
    shootFlag: int,             // 1: the ball is in flight
    gameFlag: int,              // 0 playing, 1 lost, 2 won
    cannonAngle: real,
    trail: seq<Trail.Sample>,
    clipToCourt: View.Affine2   // written by the draw pass, read by mouse handling
  )

  predicate PaddleInCourt(c: Config, p: Vec2) {
    PaddleLow(c) <= p.y <= PaddleHigh(c)
  }

  /**
   * What the source keeps of the invariant as written: flags take their
   * documented values, a finished game is paused, paddles are inside the court
   * and the trail is a non-empty, age-ordered history.
   */
  predicate Consistent(c: Config, s: State) {
    && s.pauseFlag in {0, 1}
    && s.shootFlag in {0, 1}
    && s.gameFlag in {0, 1, 2}
    && (s.gameFlag != 0 ==> s.pauseFlag == 1)
    && PaddleInCourt(c, s.leftPaddle) && PaddleInCourt(c, s.rightPaddle)
    && |s.trail| > 0 && Trail.Ordered(s.trail) && Trail.NonNegative(s.trail)
  }

  /** The game invariant: consistent, and an idle ball is at rest. */
  predicate Inv(c: Config, s: State) {
    Consistent(c, s) && (s.shootFlag == 0 ==> s.velocity == Zero)
  }

  /**
   * The constructor: whatever the member initialisers gave, the trail starts
   * as if the ball had been resting where it is for a whole trail length.
   */
  function Construct(c: Config, initial: State): (s: State)
    ensures s.trail == Trail.Initial(initial.ball, c.trailLength)
    ensures s.(trail := initial.trail) == initial
  {
    initial.(trail := Trail.Initial(initial.ball, c.trailLength))
  }

  /** A freshly constructed mode satisfies the invariant when its initialisers do. */
  lemma ConstructEstablishesInv(c: Config, initial: State)
    requires Valid(c)
    requires initial.pauseFlag == 0 && initial.shootFlag == 0 && initial.gameFlag == 0
    requires initial.velocity == Zero
    requires PaddleInCourt(c, initial.leftPaddle) && PaddleInCourt(c, initial.rightPaddle)
    ensures Inv(c, Construct(c, initial))
  {
  }
}

=== FILE: geometry.dfy ===
/**
 * Plane geometry shared by the game model: 2D vectors over exact reals,
 * clamping, and rotation of a point about a pivot (the rigid transform the
 * cannon barrel and its muzzle use).
 */
module Geometry {

  /** A 2D vector or point; the source's glm::vec2, with float read as real. */
  datatype Vec2 = Vec2(x: real, y: real) {

    function Plus(o: Vec2): Vec2 {
      Vec2(x + o.x, y + o.y)
    }

    function Minus(o: Vec2): Vec2 {
      Vec2(x - o.x, y - o.y)
    }

    function Times(k: real): Vec2 {
      Vec2(k * x, k * y)
    }
  }

  const Zero: Vec2 := Vec2(0.0, 0.0)

  function Min(a: real, b: real): real {
    if b < a then b else a
  }

  function Max(a: real, b: real): real {
    if a < b then b else a
  }

  function Abs(a: real): real {
    if a < 0.0 then -a else a
  }

  /** Squared euclidean distance between two points. */
  function SqDist(p: Vec2, q: Vec2): real {
    (p.x - q.x) * (p.x - q.x) + (p.y - q.y) * (p.y - q.y)
  }

  /**
   * `std::max(v, lo)` followed by `std::min(_, hi)`: the two-step clamp the
   * source applies to paddles. When the interval is empty the upper bound wins.
   */
  function Clamp(v: real, lo: real, hi: real): (r: real)
    ensures lo <= hi ==> lo <= r <= hi
    ensures lo <= v <= hi ==> r == v
    ensures r == v || r == lo || r == hi
    ensures r <= hi
    ensures v < lo <= hi ==> r == lo
    ensures lo <= hi < v ==> r == hi
  {
    Min(Max(v, lo), hi)
  }

  lemma ClampIdempotent(v: real, lo: real, hi: real)
    requires lo <= hi
    ensures Clamp(Clamp(v, lo, hi), lo, hi) == Clamp(v, lo, hi)
  {
  }

  /**
   * The image of `p` under translate(-center), then a rotation whose cosine and
   * sine are `c` and `s`, then translate(+center).
   */
  function RotateAbout(center: Vec2, c: real, s: real, p: Vec2): (r: Vec2)
    ensures p == center ==> r == center
    ensures c == 1.0 && s == 0.0 ==> r == p
  {
    var d := p.Minus(center);
    Vec2(center.x + (c * d.x - s * d.y), center.y + (s * d.x + c * d.y))
  }

  /** A rotation keeps every point at the same distance from its pivot. */
  lemma {:induction false} RotateAboutPreservesDistance(center: Vec2, c: real, s: real, p: Vec2)
    requires c * c + s * s == 1.0
    ensures SqDist(RotateAbout(center, c, s, p), center) == SqDist(p, center)
  {
    var dx := p.x - center.x;
    var dy := p.y - center.y;
    var r := RotateAbout(center, c, s, p);
    assert r.x - center.x == c * dx - s * dy;
    assert r.y - center.y == s * dx + c * dy;
    calc {
      (c * dx - s * dy) * (c * dx - s * dy) + (s * dx + c * dy) * (s * dx + c * dy);
      (c * c + s * s) * (dx * dx) + (c * c + s * s) * (dy * dy);
      dx * dx + dy * dy;
    }
  }

  /** Rotating back by the opposite angle (cosine c, sine -s) restores the point. */
  lemma {:induction false} RotateAboutInverse(center: Vec2, c: real, s: real, p: Vec2)
    requires c * c + s * s == 1.0
    ensures RotateAbout(center, c, -s, RotateAbout(center, c, s, p)) == p
  {
    var dx := p.x - center.x;
    var dy := p.y - center.y;
    var q := RotateAbout(center, c, s, p);
    assert q.x - center.x == c * dx - s * dy;
    assert q.y - center.y == s * dx + c * dy;
    UnrotateX(c, s, dx, dy);
    UnrotateY(c, s, dx, dy);
  }

  lemma UnrotateX(c: real, s: real, dx: real, dy: real)
    requires c * c + s * s == 1.0
    ensures c * (c * dx - s * dy) - (-s) * (s * dx + c * dy) == dx
  {
    calc {
      c * (c * dx - s * dy) - (-s) * (s * dx + c * dy);
      c * c * dx - c * s * dy + s * s * dx + s * c * dy;
      (c * c + s * s) * dx;
    }
  }

  lemma UnrotateY(c: real, s: real, dx: real, dy: real)
    requires c * c + s * s == 1.0
    ensures (-s) * (c * dx - s * dy) + c * (s * dx + c * dy) == dy
  {
    calc {
      (-s) * (c * dx - s * dy) + c * (s * dx + c * dy);
      -s * c * dx + s * s * dy + c * s * dx + c * c * dy;
      (c * c + s * s) * dy;
    }
  }

  /** The rotation leaves its pivot where it is, whatever the angle. */
  lemma RotateAboutFixesCenter(center: Vec2, c: real, s: real)
    ensures RotateAbout(center, c, s, center) == center
  {
  }
}

=== FILE: physics.dfy ===
/**
 * The per-frame step `update(elapsed)`: paddle drift, paddle clamp, Euler
 * integration of the ball, paddle collisions, wall collisions, the terminal
 * status check and trail maintenance, in that order. The random drift the
 * source draws from a Mersenne twister arrives here as one `AiDraw` per paddle.
 */
module Physics {
  import opened Geometry
  import opened Tuning
  import opened Game
  import Trail

  /** The values a paddle's drift is redrawn to when its countdown runs out. */
  datatype AiDraw = AiDraw(timer: real, offset: real)

  /** The ranges the generator samples: countdown in [2, 3.5], drift in [-1.25, 1.25]. */
  predicate DrawInRange(d: AiDraw) {
    2.0 <= d.timer <= 3.5 && -1.25 <= d.offset <= 1.25
  }

  /** Margin from the paddle's travel limit at which drift towards that wall is reversed. */
  const WallMargin: real := 0.3

  /** Paddle drift speed: grows by a half per point (doubling every four), capped at ten. */
  function SpeedMultiplier(score: int): (m: real)
    ensures m <= 10.0
    ensures score >= 0 ==> 2.0 <= m
    ensures score >= 16 ==> m == 10.0
    ensures score <= 16 ==> m == 2.0 + (score as real) / 2.0
  {
    Min(2.0 + (score as real) / 2.0, 10.0)
  }

  lemma SpeedMultiplierMonotone(a: int, b: int)
    requires a <= b
    ensures SpeedMultiplier(a) <= SpeedMultiplier(b)
  {
  }

  predicate NearTop(c: Config, y: real) {
    c.court.y - c.paddleRadius.y - y < WallMargin
  }

  predicate NearBottom(c: Config, y: real) {
    -c.court.y + c.paddleRadius.y - y > -WallMargin
  }

  datatype Drift = Drift(paddle: Vec2, timer: real, offset: real)

  /**
   * One paddle's AI move: count down, redraw the drift when the countdown
   * falls below one frame, reverse a drift that heads into a nearby wall,
   * then move by speed * elapsed * drift.
   */
  function PaddleMove(c: Config, score: int, elapsed: real, paddle: Vec2,
                      timer: real, offset: real, draw: AiDraw): (r: Drift)
    ensures r.paddle.x == paddle.x
    ensures timer - elapsed < elapsed ==> r.timer == draw.timer
    ensures timer - elapsed >= elapsed ==> r.timer == timer - elapsed && r.timer >= elapsed
    ensures var drawn := if timer - elapsed < elapsed then draw.offset else offset;
      r.offset == drawn || r.offset == -drawn
    ensures !(NearTop(c, paddle.y) && NearBottom(c, paddle.y)) ==>
      !(r.offset > 0.0 && NearTop(c, paddle.y)) && !(r.offset < 0.0 && NearBottom(c, paddle.y))
    ensures r.paddle.y - paddle.y == SpeedMultiplier(score) * elapsed * r.offset
  {
    var t := timer - elapsed;
    var redraw := t < elapsed;
    var t' := if redraw then draw.timer else t;
    var o := if redraw then draw.offset else offset;
    var o' := if (o > 0.0 && NearTop(c, paddle.y)) || (o < 0.0 && NearBottom(c, paddle.y)) then -o else o;
    Drift(Vec2(paddle.x, paddle.y + SpeedMultiplier(score) * elapsed * o'), t', o')
  }

  /** When the court leaves room for the margin, a drift never points at a wall it is near. */
  lemma DriftAwayFromNearWall(c: Config, score: int, elapsed: real, paddle: Vec2,
                              timer: real, offset: real, draw: AiDraw)
    requires c.court.y - c.paddleRadius.y >= WallMargin
    ensures var r := PaddleMove(c, score, elapsed, paddle, timer, offset, draw);
      !(r.offset > 0.0 && NearTop(c, paddle.y)) && !(r.offset < 0.0 && NearBottom(c, paddle.y))
  {
  }

  /** A redrawn countdown and drift stay inside the sampled ranges; flipping keeps the magnitude. */
  lemma RedrawInRange(c: Config, score: int, elapsed: real, paddle: Vec2,
                      timer: real, offset: real, draw: AiDraw)
    requires DrawInRange(draw) && timer - elapsed < elapsed
    ensures var r := PaddleMove(c, score, elapsed, paddle, timer, offset, draw);
      2.0 <= r.timer <= 3.5 && -1.25 <= r.offset <= 1.25
  {
  }

  /** Both paddles' AI moves, left first, each with its own draw. */
  function MovePaddles(c: Config, s: State, elapsed: real, leftDraw: AiDraw, rightDraw: AiDraw): (r: State)
    ensures Drift(r.leftPaddle, r.leftAiOffsetUpdate, r.leftAiOffset) ==
      PaddleMove(c, s.score, elapsed, s.leftPaddle, s.leftAiOffsetUpdate, s.leftAiOffset, leftDraw)
    ensures Drift(r.rightPaddle, r.rightAiOffsetUpdate, r.rightAiOffset) ==
      PaddleMove(c, s.score, elapsed, s.rightPaddle, s.rightAiOffsetUpdate, s.rightAiOffset, rightDraw)
    ensures r.(leftPaddle := s.leftPaddle, leftAiOffsetUpdate := s.leftAiOffsetUpdate,
               leftAiOffset := s.leftAiOffset, rightPaddle := s.rightPaddle,
               rightAiOffsetUpdate := s.rightAiOffsetUpdate, rightAiOffset := s.rightAiOffset) == s
  {
    var l := PaddleMove(c, s.score, elapsed, s.leftPaddle, s.leftAiOffsetUpdate, s.leftAiOffset, leftDraw);
    var rt := PaddleMove(c, s.score, elapsed, s.rightPaddle, s.rightAiOffsetUpdate, s.rightAiOffset, rightDraw);
    s.(leftPaddle := l.paddle, leftAiOffsetUpdate := l.timer, leftAiOffset := l.offset,
       rightPaddle := rt.paddle, rightAiOffsetUpdate := rt.timer, rightAiOffset := rt.offset)
  }

  /**
   * After the AI step, neither paddle's drift points at a wall it is near, and
   * each moves by the score's speed times `elapsed` times its drift.
   */
  lemma MovePaddlesAwayFromNearWalls(c: Config, s: State, elapsed: real, leftDraw: AiDraw, rightDraw: AiDraw)
    requires c.court.y - c.paddleRadius.y >= WallMargin
    ensures var r := MovePaddles(c, s, elapsed, leftDraw, rightDraw);
      && !(r.leftAiOffset > 0.0 && NearTop(c, s.leftPaddle.y))
      && !(r.leftAiOffset < 0.0 && NearBottom(c, s.leftPaddle.y))
      && !(r.rightAiOffset > 0.0 && NearTop(c, s.rightPaddle.y))
      && !(r.rightAiOffset < 0.0 && NearBottom(c, s.rightPaddle.y))
      && r.leftPaddle.y - s.leftPaddle.y == SpeedMultiplier(s.score) * elapsed * r.leftAiOffset
      && r.rightPaddle.y - s.rightPaddle.y == SpeedMultiplier(s.score) * elapsed * r.rightAiOffset
  {
    DriftAwayFromNearWall(c, s.score, elapsed, s.leftPaddle, s.leftAiOffsetUpdate, s.leftAiOffset, leftDraw);
    DriftAwayFromNearWall(c, s.score, elapsed, s.rightPaddle, s.rightAiOffsetUpdate, s.rightAiOffset, rightDraw);
  }

  /** Keeps both paddles' centres inside the court; nothing else changes. */
  function ClampPaddles(c: Config, s: State): (r: State)
    ensures PaddleLow(c) <= PaddleHigh(c) ==>
      PaddleInCourt(c, r.leftPaddle) && PaddleInCourt(c, r.rightPaddle)
    ensures PaddleInCourt(c, s.leftPaddle) && PaddleInCourt(c, s.rightPaddle) ==> r == s
    ensures PaddleInCourt(c, s.leftPaddle) ==> r.leftPaddle == s.leftPaddle
    ensures PaddleInCourt(c, s.rightPaddle) ==> r.rightPaddle == s.rightPaddle
    ensures PaddleLow(c) <= PaddleHigh(c) && s.leftPaddle.y < PaddleLow(c) ==> r.leftPaddle.y == PaddleLow(c)
    ensures PaddleLow(c) <= PaddleHigh(c) && s.leftPaddle.y > PaddleHigh(c) ==> r.leftPaddle.y == PaddleHigh(c)
    ensures PaddleLow(c) <= PaddleHigh(c) && s.rightPaddle.y < PaddleLow(c) ==> r.rightPaddle.y == PaddleLow(c)
    ensures PaddleLow(c) <= PaddleHigh(c) && s.rightPaddle.y > PaddleHigh(c) ==> r.rightPaddle.y == PaddleHigh(c)
    ensures r.leftPaddle.x == s.leftPaddle.x && r.rightPaddle.x == s.rightPaddle.x
    ensures r.(leftPaddle := s.leftPaddle, rightPaddle := s.rightPaddle) == s
  {
    s.(rightPaddle := Vec2(s.rightPaddle.x, Clamp(s.rightPaddle.y, PaddleLow(c), PaddleHigh(c))),
       leftPaddle := Vec2(s.leftPaddle.x, Clamp(s.leftPaddle.y, PaddleLow(c), PaddleHigh(c))))
  }

  /** The ball back in the cannon: loaded position, at rest, not shooting. */
  function ResetBall(c: Config, s: State): (r: State)
    ensures r.shootFlag == 0 && r.velocity == Zero && r.ball == LoadedPosition(c)
    ensures r.(ball := s.ball, velocity := s.velocity, shootFlag := s.shootFlag) == s
  {
    s.(shootFlag := 0, ball := LoadedPosition(c), velocity := Zero)
  }

  /**
   * The axis-aligned boxes of paddle and ball overlap (touching counts): the
   * larger of the two lower corners does not exceed the smaller of the upper.
   */
  predicate Overlaps(c: Config, paddle: Vec2, ball: Vec2) {
    var lo := Vec2(Max(paddle.x - c.paddleRadius.x, ball.x - c.ballRadius.x),
                   Max(paddle.y - c.paddleRadius.y, ball.y - c.ballRadius.y));
    var hi := Vec2(Min(paddle.x + c.paddleRadius.x, ball.x + c.ballRadius.x),
                   Min(paddle.y + c.paddleRadius.y, ball.y + c.ballRadius.y));
    !(lo.x > hi.x || lo.y > hi.y)
  }

  /** Overlap holds exactly when the centres are within the summed half-extents on both axes. */
  lemma OverlapsIffNear(c: Config, paddle: Vec2, ball: Vec2)
    requires c.paddleRadius.x >= 0.0 && c.paddleRadius.y >= 0.0
    requires c.ballRadius.x >= 0.0 && c.ballRadius.y >= 0.0
    ensures Overlaps(c, paddle, ball) <==>
      Abs(paddle.x - ball.x) <= c.paddleRadius.x + c.ballRadius.x &&
      Abs(paddle.y - ball.y) <= c.paddleRadius.y + c.ballRadius.y
  {
  }

  /**
   * Ball against one paddle: on overlap the ball is reset and the obstacle
   * costs one health, the defender gives one point; without overlap nothing
   * changes.
   */
  function PaddleVsBall(c: Config, s: State, paddle: Vec2, obstacle: bool): (r: State)
    ensures !Overlaps(c, paddle, s.ball) ==> r == s
    ensures Overlaps(c, paddle, s.ball) ==>
      && r.ball == LoadedPosition(c) && r.velocity == Zero && r.shootFlag == 0
      && r.health == (if obstacle then s.health - 1 else s.health)
      && r.score == (if obstacle then s.score else s.score + 1)
    ensures r.(ball := s.ball, velocity := s.velocity, shootFlag := s.shootFlag,
               health := s.health, score := s.score) == s
  {
    if !Overlaps(c, paddle, s.ball) then s
    else if obstacle then ResetBall(c, s).(health := s.health - 1)
    else ResetBall(c, s).(score := s.score + 1)
  }

  /**
   * Top and bottom walls: the ball is pushed back onto the wall's surface and
   * its vertical velocity is reversed only if it still points into that wall.
   */
  function TopBottomWalls(c: Config, s: State): (r: State)
    ensures BallLow(c) <= BallHigh(c) ==> BallLow(c) <= r.ball.y <= BallHigh(c)
    ensures BallLow(c) <= s.ball.y <= BallHigh(c) ==> r == s
    ensures r.velocity.y == s.velocity.y || r.velocity.y == -s.velocity.y
    ensures BallLow(c) <= BallHigh(c) && s.ball.y > BallHigh(c) ==> r.ball.y == BallHigh(c)
    ensures BallLow(c) <= BallHigh(c) && s.ball.y < BallLow(c) ==> r.ball.y == BallLow(c)
    ensures BallLow(c) <= BallHigh(c) && s.ball.y > BallHigh(c) ==> r.velocity.y <= 0.0
    ensures BallLow(c) <= BallHigh(c) && s.ball.y < BallLow(c) ==> r.velocity.y >= 0.0
    ensures BallLow(c) <= BallHigh(c) && r.velocity.y != s.velocity.y ==>
      (s.ball.y > BallHigh(c) && s.velocity.y > 0.0) || (s.ball.y < BallLow(c) && s.velocity.y < 0.0)
    ensures r.(ball := s.ball, velocity := s.velocity) == s
    ensures r.ball.x == s.ball.x && r.velocity.x == s.velocity.x
  {
    var s1 :=
      if s.ball.y > BallHigh(c) then
        s.(ball := Vec2(s.ball.x, BallHigh(c)),
           velocity := if s.velocity.y > 0.0 then Vec2(s.velocity.x, -s.velocity.y) else s.velocity)
      else s;
    if s1.ball.y < BallLow(c) then
      s1.(ball := Vec2(s1.ball.x, BallLow(c)),
          velocity := if s1.velocity.y < 0.0 then Vec2(s1.velocity.x, -s1.velocity.y) else s1.velocity)
    else s1
  }

  /** The ball has reached the right or left wall while still moving outward faster than epsilon. */
  predicate Missed(c: Config, ball: Vec2, velocity: Vec2) {
    || (ball.x >= c.court.x - c.ballRadius.x && velocity.x > FltEpsilon)
    || (ball.x <= -c.court.x + c.ballRadius.x && velocity.x < -FltEpsilon)
  }

  /**
   * Left and right walls: a miss (the ball through a side wall, moving
   * outward) costs one health and resets the ball; a ball at rest against a
   * side wall is left alone.
   */
  function SideWalls(c: Config, s: State): (r: State)
    ensures Missed(c, s.ball, s.velocity) ==>
      r == ResetBall(c, s).(health := s.health - 1)
    ensures !Missed(c, s.ball, s.velocity) ==> r == s
  {
    var s1 :=
      if s.ball.x >= c.court.x - c.ballRadius.x && s.velocity.x > FltEpsilon
      then ResetBall(c, s).(health := s.health - 1) else s;
    if s1.ball.x <= -c.court.x + c.ballRadius.x && s1.velocity.x < -FltEpsilon
    then ResetBall(c, s1).(health := s1.health - 1) else s1
  }

  /** A ball at rest is never treated as a miss. */
  lemma RestingBallNeverMisses(c: Config, ball: Vec2)
    ensures !Missed(c, ball, Zero)
  {
  }

  /**
   * The terminal check: no health left means lost, enough points means won
   * (winning takes precedence); either pauses the game in the same frame.
   */
  function StatusTransition(c: Config, s: State): (r: State)
    ensures s.score >= c.maxScore ==> r.pauseFlag == 1 && r.gameFlag == 2
    ensures s.health <= 0 && s.score < c.maxScore ==> r.pauseFlag == 1 && r.gameFlag == 1
    ensures s.health > 0 && s.score < c.maxScore ==> r == s
    ensures r.(pauseFlag := s.pauseFlag, gameFlag := s.gameFlag) == s
  {
    var s1 := if s.health <= 0 then s.(pauseFlag := 1, gameFlag := 1) else s;
    if s.score >= c.maxScore then s1.(pauseFlag := 1, gameFlag := 2) else s1
  }

  /** Paddles driven and clamped, then the ball moved by one Euler step. */
  function Advance(c: Config, s: State, elapsed: real, leftDraw: AiDraw, rightDraw: AiDraw): (r: State)
    ensures r.ball == s.ball.Plus(s.velocity.Times(elapsed))
    ensures PaddleLow(c) <= PaddleHigh(c) ==>
      PaddleInCourt(c, r.leftPaddle) && PaddleInCourt(c, r.rightPaddle)
    ensures r.velocity == s.velocity && r.health == s.health && r.score == s.score
    ensures r.pauseFlag == s.pauseFlag && r.shootFlag == s.shootFlag && r.gameFlag == s.gameFlag
    ensures r.trail == s.trail && r.cannonAngle == s.cannonAngle && r.clipToCourt == s.clipToCourt
    ensures r.(ball := s.ball) == ClampPaddles(c, MovePaddles(c, s, elapsed, leftDraw, rightDraw))
  {
    var moved := ClampPaddles(c, MovePaddles(c, s, elapsed, leftDraw, rightDraw));
    moved.(ball := moved.ball.Plus(moved.velocity.Times(elapsed)))
  }

  /** Collisions with both paddles (obstacle first), then the walls, then the terminal check. */
  function Resolve(c: Config, s: State): (r: State)
    ensures r.health == s.health || r.health == s.health - 1
    ensures r.score == s.score || r.score == s.score + 1
    ensures r.leftPaddle == s.leftPaddle && r.rightPaddle == s.rightPaddle
    ensures r.trail == s.trail
    ensures BallLow(c) <= 0.0 <= BallHigh(c) ==> BallLow(c) <= r.ball.y <= BallHigh(c)
    ensures (s.shootFlag == 0 ==> s.velocity == Zero) ==> (r.shootFlag == 0 ==> r.velocity == Zero)
    ensures r.shootFlag == s.shootFlag || r.shootFlag == 0
    ensures r.health <= 0 || r.score >= c.maxScore ==> r.pauseFlag == 1
    ensures r.score >= c.maxScore ==> r.gameFlag == 2
    ensures r.health <= 0 && r.score < c.maxScore ==> r.gameFlag == 1
    ensures r.health > 0 && r.score < c.maxScore ==> r.pauseFlag == s.pauseFlag && r.gameFlag == s.gameFlag
    ensures !Overlaps(c, s.leftPaddle, s.ball) && !Overlaps(c, s.rightPaddle, s.ball) && !Missed(c, s.ball, s.velocity) ==>
      && r.health == s.health && r.score == s.score && r.shootFlag == s.shootFlag
      && r.ball.x == s.ball.x && r.velocity.x == s.velocity.x
  {
    var hitLeft := PaddleVsBall(c, s, s.leftPaddle, true);
    var hitRight := PaddleVsBall(c, hitLeft, hitLeft.rightPaddle, false);
    var walled := TopBottomWalls(c, hitRight);
    var sided := SideWalls(c, walled);
    assert hitLeft.health < s.health ==> hitRight.velocity == Zero && hitRight.ball == LoadedPosition(c);
    assert walled.velocity.x == hitRight.velocity.x && walled.ball.x == hitRight.ball.x;
    assert hitLeft.health < s.health ==> !Missed(c, walled.ball, walled.velocity);
    StatusTransition(c, sided)
  }

  /** The whole of `update(elapsed)`: nothing at all while paused. */
  function Update(c: Config, s: State, elapsed: real, leftDraw: AiDraw, rightDraw: AiDraw): (r: State)
    ensures s.pauseFlag != 0 ==> r == s
    ensures s.pauseFlag == 0 && PaddleLow(c) <= PaddleHigh(c) ==>
      PaddleInCourt(c, r.leftPaddle) && PaddleInCourt(c, r.rightPaddle)
    ensures s.pauseFlag == 0 && BallLow(c) <= 0.0 <= BallHigh(c) ==> BallLow(c) <= r.ball.y <= BallHigh(c)
    ensures r.health == s.health || r.health == s.health - 1
    ensures r.score == s.score || r.score == s.score + 1
    ensures s.pauseFlag == 0 && (r.health <= 0 || r.score >= c.maxScore) ==> r.pauseFlag == 1
    ensures s.pauseFlag == 0 && r.score >= c.maxScore ==> r.gameFlag == 2
    ensures s.pauseFlag == 0 && r.health <= 0 && r.score < c.maxScore ==> r.gameFlag == 1
    ensures s.pauseFlag == 0 && r.health > 0 && r.score < c.maxScore ==> r.pauseFlag == 0 && r.gameFlag == s.gameFlag
    ensures s.pauseFlag == 0 ==>
      && |r.trail| >= 1
      && r.trail[|r.trail| - 1] == Trail.Sample(r.ball, 0.0)
      && (|r.trail| < 2 || r.trail[1].age <= c.trailLength)
  {
    if s.pauseFlag != 0 then s
    else
      var ended := Resolve(c, Advance(c, s, elapsed, leftDraw, rightDraw));
      ended.(trail := Trail.Step(ended.trail, ended.ball, elapsed, c.trailLength))
  }

  /**
   * Touching the obstacle paddle after the move costs exactly one health and
   * leaves the ball loaded and at rest.
   */
  lemma {:induction false} UpdateObstacleHit(c: Config, s: State, elapsed: real, leftDraw: AiDraw, rightDraw: AiDraw)
    requires Valid(c) && s.pauseFlag == 0
    requires var a := Advance(c, s, elapsed, leftDraw, rightDraw); Overlaps(c, a.leftPaddle, a.ball)
    ensures var r := Update(c, s, elapsed, leftDraw, rightDraw);
      && r.health == s.health - 1
      && r.ball == LoadedPosition(c) && r.velocity == Zero && r.shootFlag == 0
  {
    var a := Advance(c, s, elapsed, leftDraw, rightDraw);
    var hitLeft := PaddleVsBall(c, a, a.leftPaddle, true);
    var hitRight := PaddleVsBall(c, hitLeft, hitLeft.rightPaddle, false);
    assert hitRight.ball == LoadedPosition(c) && hitRight.velocity == Zero;
    assert hitRight.health == s.health - 1;
    var walled := TopBottomWalls(c, hitRight);
    assert walled == hitRight;
    RestingBallNeverMisses(c, walled.ball);
    assert SideWalls(c, walled) == walled;
  }

  /**
   * Touching the defender (and not the obstacle) after the move scores exactly
   * one point, costs no health and leaves the ball loaded and at rest.
   */
  lemma {:induction false} UpdateDefenderHit(c: Config, s: State, elapsed: real, leftDraw: AiDraw, rightDraw: AiDraw)
    requires Valid(c) && s.pauseFlag == 0
    requires var a := Advance(c, s, elapsed, leftDraw, rightDraw);
      !Overlaps(c, a.leftPaddle, a.ball) && Overlaps(c, a.rightPaddle, a.ball)
    ensures var r := Update(c, s, elapsed, leftDraw, rightDraw);
      && r.score == s.score + 1 && r.health == s.health
      && r.ball == LoadedPosition(c) && r.velocity == Zero && r.shootFlag == 0
  {
    var a := Advance(c, s, elapsed, leftDraw, rightDraw);
    var hitLeft := PaddleVsBall(c, a, a.leftPaddle, true);
    assert hitLeft == a;
    var hitRight := PaddleVsBall(c, hitLeft, hitLeft.rightPaddle, false);
    assert hitRight.ball == LoadedPosition(c) && hitRight.velocity == Zero;
    var walled := TopBottomWalls(c, hitRight);
    assert walled == hitRight;
    RestingBallNeverMisses(c, walled.ball);
    assert SideWalls(c, walled) == walled;
  }

  /** Update keeps the game invariant for any non-negative frame time. */
  lemma {:induction false} UpdatePreservesInv(c: Config, s: State, elapsed: real, leftDraw: AiDraw, rightDraw: AiDraw)
    requires Valid(c) && Inv(c, s) && elapsed >= 0.0
    ensures Inv(c, Update(c, s, elapsed, leftDraw, rightDraw))
  {
    if s.pauseFlag == 0 {
      var a := Advance(c, s, elapsed, leftDraw, rightDraw);
      var ended := Resolve(c, a);
      assert ended.shootFlag in {0, 1};
      assert ended.gameFlag != 0 ==> ended.pauseFlag == 1;
      Trail.StepKeepsOrder(ended.trail, ended.ball, elapsed, c.trailLength);
    }
  }

  /**
   * Update keeps the consistency part of the invariant whatever the ball's
   * velocity, so it holds of the game as the source writes its restart.
   */
  lemma {:induction false} UpdatePreservesConsistent(c: Config, s: State, elapsed: real, leftDraw: AiDraw, rightDraw: AiDraw)
    requires Valid(c) && Consistent(c, s) && elapsed >= 0.0
    ensures Consistent(c, Update(c, s, elapsed, leftDraw, rightDraw))
  {
    if s.pauseFlag == 0 {
      var a := Advance(c, s, elapsed, leftDraw, rightDraw);
      var ended := Resolve(c, a);
      assert ended.shootFlag in {0, 1};
      assert ended.gameFlag != 0 ==> ended.pauseFlag == 1;
      Trail.StepKeepsOrder(ended.trail, ended.ball, elapsed, c.trailLength);
    }
  }
}

=== FILE: trail.dfy ===
/**
 * The ball trail: a queue of (position, age) samples, oldest at the front.
 * Every unpaused frame ages all samples, appends the current ball position at
 * age zero, and drops the front sample while the one behind it is already
 * older than the trail length (so a pair bracketing the trail length remains
 * for interpolation).
 */
module Trail {
  import opened Geometry

  datatype Sample = Sample(pos: Vec2, age: real)

  /** Ages never increase from the front (oldest) to the back (newest). */
  predicate Ordered(t: seq<Sample>) {
    forall i, j :: 0 <= i < j < |t| ==> t[j].age <= t[i].age
  }

  predicate NonNegative(t: seq<Sample>) {
    forall i :: 0 <= i < |t| ==> t[i].age >= 0.0
  }

  /** The constructor's trail: the ball as if it had been sitting still forever. */
  function Initial(ball: Vec2, limit: real): (t: seq<Sample>)
    ensures |t| == 2
    ensures t[0].pos == ball && t[1].pos == ball
    ensures t[0].age == limit && t[1].age == 0.0
    ensures limit >= 0.0 ==> Ordered(t) && NonNegative(t)
  {
    [Sample(ball, limit), Sample(ball, 0.0)]
  }

  /** Every sample grows older by `dt`; positions stay. */
  function Age(t: seq<Sample>, dt: real): (r: seq<Sample>)
    ensures |r| == |t|
    ensures forall i :: 0 <= i < |t| ==> r[i].pos == t[i].pos && r[i].age == t[i].age + dt
  {
    seq(|t|, i requires 0 <= i < |t| => Sample(t[i].pos, t[i].age + dt))
  }

  /**
   * How many samples the pruning loop pops from the front: it pops while at
   * least two samples remain and the second is older than `limit`. Every
   * popped sample had an over-age successor, and the loop's exit condition
   * holds of what remains.
   */
  function Dropped(t: seq<Sample>, limit: real): (k: nat)
    ensures k <= |t| && (|t| > 0 ==> k < |t|)
    ensures |t| - k < 2 || t[k + 1].age <= limit
    ensures forall j :: 1 <= j <= k ==> t[j].age > limit
    decreases |t|
  {
    if |t| >= 2 && t[1].age > limit then 1 + Dropped(t[1..], limit) else 0
  }

  /** The trail after the pruning loop. */
  function Prune(t: seq<Sample>, limit: real): (r: seq<Sample>)
    ensures |r| <= |t| && r == t[|t| - |r|..]
    ensures |t| > 0 ==> |r| > 0
    ensures |r| < 2 || r[1].age <= limit
    ensures forall j :: 1 <= j <= |t| - |r| ==> t[j].age > limit
    ensures |r| < |t| ==> r[0].age > limit
  {
    t[Dropped(t, limit)..]
  }

  /** One unpaused frame's trail maintenance. */
  function Step(t: seq<Sample>, ball: Vec2, dt: real, limit: real): (r: seq<Sample>)
    ensures 1 <= |r| <= |t| + 1
    ensures r[|r| - 1] == Sample(ball, 0.0)
    ensures |r| < 2 || r[1].age <= limit
    ensures |r| < |t| + 1 ==> r[0].age > limit
    ensures var k := |t| + 1 - |r|;
      forall i :: 0 <= i < |r| - 1 ==> r[i].pos == t[k + i].pos && r[i].age == t[k + i].age + dt
  {
    var grown := Age(t, dt) + [Sample(ball, 0.0)];
    var k := Dropped(grown, limit);
    assert |grown| == |t| + 1;
    var r := grown[k..];
    assert r[|r| - 1] == grown[|t|];
    assert forall i :: 0 <= i < |r| - 1 ==> r[i].pos == t[k + i].pos && r[i].age == t[k + i].age + dt by {
      forall i | 0 <= i < |r| - 1
        ensures r[i].pos == t[k + i].pos && r[i].age == t[k + i].age + dt
      {
        GrownAt(t, ball, dt, k + i);
      }
    }
    r
  }

  lemma GrownAt(t: seq<Sample>, ball: Vec2, dt: real, j: nat)
    requires j < |t|
    ensures (Age(t, dt) + [Sample(ball, 0.0)])[j] == Sample(t[j].pos, t[j].age + dt)
  {
  }

  lemma SuffixKeepsOrder(t: seq<Sample>, k: nat)
    requires k <= |t|
    requires Ordered(t)
    ensures Ordered(t[k..])
  {
  }

  /** With a non-negative frame time, a step keeps the trail ordered and non-negative. */
  lemma {:induction false} StepKeepsOrder(t: seq<Sample>, ball: Vec2, dt: real, limit: real)
    requires Ordered(t) && NonNegative(t)
    requires dt >= 0.0
    ensures Ordered(Step(t, ball, dt, limit)) && NonNegative(Step(t, ball, dt, limit))
  {
    var grown := Age(t, dt) + [Sample(ball, 0.0)];
    assert Ordered(grown) by {
      forall i, j | 0 <= i < j < |grown|
        ensures grown[j].age <= grown[i].age
      {
        if j < |t| {
          assert t[j].age <= t[i].age;
        } else {
          assert t[i].age >= 0.0 || i == |t|;
        }
      }
    }
    assert NonNegative(grown);
    SuffixKeepsOrder(grown, Dropped(grown, limit));
  }

  /**
   * After pruning an ordered trail, only the front sample may be older than
   * the trail length.
   */
  lemma {:induction false} PrunedAgesBounded(t: seq<Sample>, limit: real)
    requires Ordered(t)
    ensures forall i :: 1 <= i < |Prune(t, limit)| ==> Prune(t, limit)[i].age <= limit
  {
    var r := Prune(t, limit);
    SuffixKeepsOrder(t, Dropped(t, limit));
    forall i | 1 <= i < |r|
      ensures r[i].age <= limit
    {
      assert r[i].age <= r[1].age;
    }
  }
}

=== FILE: tuning.dfy ===
/**
 * The fixed geometry and tuning of one game. The source declares these as
 * members initialised in its header; here they are one immutable record that
 * every operation receives.
 */
module Tuning {
  import opened Geometry

  /** FLT_EPSILON of IEEE single precision, 2^-23. */
  const FltEpsilon: real := 1.0 / 8388608.0

  /** Speed given to the ball when the cannon fires. */
  const MuzzleSpeed: real := 20.0

  datatype Config = Config(
    court: Vec2,          // court half-extents
    paddleRadius: Vec2,   // paddle half-extents
    ballRadius: Vec2,     // ball half-extents (x is also the drawn radius)
    trailLength: real,    // seconds of history the trail keeps
    maxHealth: int,
    maxScore: int,
    cannonBase: Vec2,     // point the mouse aim is measured from
    cannonBarrel: Vec2,   // pivot the barrel rotates about
    barrelOffset: real,
    barrelLength: real,
    maxElevation: real    // largest aim angle, in radians
  )

  /** The geometry every later property relies on: a court that holds a paddle and a ball. */
  predicate Valid(c: Config) {
    && c.court.x > 0.0 && c.court.y > 0.0
    && c.paddleRadius.x > 0.0 && c.paddleRadius.y > 0.0
    && c.ballRadius.x > 0.0 && c.ballRadius.y > 0.0
    && c.paddleRadius.y <= c.court.y
    && c.ballRadius.y <= c.court.y
    && c.trailLength > 0.0
    && c.maxHealth > 0 && c.maxScore > 0
    && c.maxElevation >= 0.0
  }

  /** Where the ball rests, just inside the left wall, before it is fired. */
  function LoadedPosition(c: Config): (p: Vec2)
    ensures p.y == 0.0
    ensures p.x > -c.court.x + c.ballRadius.x
  {
    Vec2(-c.court.x + c.ballRadius.x + FltEpsilon, 0.0)
  }

  /** Lowest and highest y a paddle's centre may take. */
  function PaddleLow(c: Config): real {
    -c.court.y + c.paddleRadius.y
  }

  function PaddleHigh(c: Config): real {
    c.court.y - c.paddleRadius.y
  }

  /** Lowest and highest y the ball's centre may take between the top and bottom walls. */
  function BallLow(c: Config): real {
    -c.court.y + c.ballRadius.y
  }

  function BallHigh(c: Config): real {
    c.court.y - c.ballRadius.y
  }
}

=== FILE: view.dfy ===
/**
 * The court-to-clip transform the draw pass computes each frame, and its
 * hand-built inverse that mouse handling uses on the next frame. Only the
 * 2D affine part matters: x and y are scaled independently and translated.
 */
module View {
  import opened Geometry

  /** Drawing constants that size the visible scene around the court. */
  const WallRadius: real := 0.05
  const Padding: real := 0.14
  const ScoreRadius: real := 0.1

  /** (x, y) |-> (sx * x + tx, sy * y + ty). */
  datatype Affine2 = Affine2(sx: real, sy: real, tx: real, ty: real) {
    function Apply(p: Vec2): Vec2 {
      Vec2(sx * p.x + tx, sy * p.y + ty)
    }
  }

  /** Lower-left and upper-right corners of the area that must be visible. */
  function SceneMin(court: Vec2): Vec2 {
    Vec2(-court.x - 2.0 * WallRadius - Padding, -court.y - 2.0 * WallRadius - Padding)
  }

  function SceneMax(court: Vec2): Vec2 {
    Vec2(court.x + 2.0 * WallRadius + Padding,
         court.y + 2.0 * WallRadius + 3.0 * ScoreRadius + Padding)
  }

  function SceneCenter(court: Vec2): Vec2 {
    SceneMax(court).Plus(SceneMin(court)).Times(0.5)
  }

  /** A court of non-negative half-extents gives a scene of positive size. */
  predicate CourtShape(court: Vec2) {
    court.x >= 0.0 && court.y >= 0.0
  }

  /** Drawable width over height. */
  function Aspect(width: nat, height: nat): (a: real)
    requires height > 0
    ensures width > 0 ==> a > 0.0
    ensures a * (height as real) == width as real
  {
    (width as real) / (height as real)
  }

  /**
   * The largest uniform scale at which the scene fits [-aspect, aspect] in x
   * and [-1, 1] in y.
   */
  function Scale(court: Vec2, aspect: real): (s: real)
    requires CourtShape(court)
    ensures s <= 2.0 * aspect / (SceneMax(court).x - SceneMin(court).x)
    ensures s <= 2.0 / (SceneMax(court).y - SceneMin(court).y)
    ensures s == 2.0 * aspect / (SceneMax(court).x - SceneMin(court).x)
         || s == 2.0 / (SceneMax(court).y - SceneMin(court).y)
    ensures aspect > 0.0 ==> s > 0.0
  {
    Min(2.0 * aspect / (SceneMax(court).x - SceneMin(court).x),
        2.0 / (SceneMax(court).y - SceneMin(court).y))
  }

  /** The court_to_clip matrix, 2D affine part. */
  function CourtToClip(court: Vec2, aspect: real): (m: Affine2)
    requires CourtShape(court) && aspect > 0.0
    ensures m.Apply(SceneCenter(court)) == Vec2(0.0, 0.0)
    ensures m.sx > 0.0 && m.sy > 0.0
  {
    var s := Scale(court, aspect);
    var ctr := SceneCenter(court);
    Affine2(s / aspect, s, -ctr.x * (s / aspect), -ctr.y * s)
  }

  /** The clip_to_court matrix the draw pass stores for mouse handling. */
  function ClipToCourt(court: Vec2, aspect: real): (m: Affine2)
    requires CourtShape(court) && aspect > 0.0
    ensures m.Apply(Vec2(0.0, 0.0)) == SceneCenter(court)
    ensures m.sx > 0.0 && m.sy > 0.0
  {
    var s := Scale(court, aspect);
    var ctr := SceneCenter(court);
    Affine2(aspect / s, 1.0 / s, ctr.x, ctr.y)
  }

  /** Court-to-clip recentres the scene and scales it, x further divided by the aspect. */
  lemma CourtToClipMeaning(court: Vec2, aspect: real, p: Vec2)
    requires CourtShape(court) && aspect > 0.0
    ensures var s := Scale(court, aspect);
      var ctr := SceneCenter(court);
      CourtToClip(court, aspect).Apply(p) == Vec2((p.x - ctr.x) * s / aspect, (p.y - ctr.y) * s)
  {
  }

  /** Mapping a court point to clip space and back gives the point. */
  lemma {:induction false} ClipToCourtAfterCourtToClip(court: Vec2, aspect: real, p: Vec2)
    requires CourtShape(court) && aspect > 0.0
    ensures ClipToCourt(court, aspect).Apply(CourtToClip(court, aspect).Apply(p)) == p
  {
    var s := Scale(court, aspect);
    var ctr := SceneCenter(court);
    var q := CourtToClip(court, aspect).Apply(p);
    assert q.x == (p.x - ctr.x) * (s / aspect);
    assert q.y == (p.y - ctr.y) * s;
    calc {
      (aspect / s) * q.x;
      (aspect / s) * (s / aspect) * (p.x - ctr.x);
      p.x - ctr.x;
    }
    calc {
      (1.0 / s) * q.y;
      (1.0 / s) * s * (p.y - ctr.y);
      p.y - ctr.y;
    }
  }

  /** Mapping a clip point to the court and back gives the point. */
  lemma {:induction false} CourtToClipAfterClipToCourt(court: Vec2, aspect: real, q: Vec2)
    requires CourtShape(court) && aspect > 0.0
    ensures CourtToClip(court, aspect).Apply(ClipToCourt(court, aspect).Apply(q)) == q
  {
    var s := Scale(court, aspect);
    var ctr := SceneCenter(court);
    var p := ClipToCourt(court, aspect).Apply(q);
    assert p.x - ctr.x == (aspect / s) * q.x;
    assert p.y - ctr.y == (1.0 / s) * q.y;
    CourtToClipMeaning(court, aspect, p);
    calc {
      (p.x - ctr.x) * s / aspect;
      (aspect / s) * q.x * s / aspect;
      q.x;
    }
    calc {
      (p.y - ctr.y) * s;
      (1.0 / s) * q.y * s;
      q.y;
    }
  }

  /** Every point of the scene box lands inside the clip square [-1, 1]^2. */
  lemma {:induction false} SceneFitsClip(court: Vec2, aspect: real, p: Vec2)
    requires CourtShape(court) && aspect > 0.0
    requires SceneMin(court).x <= p.x <= SceneMax(court).x
    requires SceneMin(court).y <= p.y <= SceneMax(court).y
    ensures var q := CourtToClip(court, aspect).Apply(p);
      -1.0 <= q.x <= 1.0 && -1.0 <= q.y <= 1.0
  {
    var s := Scale(court, aspect);
    var ctr := SceneCenter(court);
    CourtToClipMeaning(court, aspect, p);
    SceneFitsClipX(court, aspect, s, p.x - ctr.x);
    SceneFitsClipY(court, s, p.y - ctr.y);
  }

  lemma {:induction false} SceneFitsClipX(court: Vec2, aspect: real, s: real, dx: real)
    requires CourtShape(court) && aspect > 0.0 && s == Scale(court, aspect)
    requires var w := SceneMax(court).x - SceneMin(court).x; -w / 2.0 <= dx <= w / 2.0
    ensures -1.0 <= dx * s / aspect <= 1.0
  {
    var w := SceneMax(court).x - SceneMin(court).x;
    DivMonotone(s, 2.0 * aspect / w, aspect);
    assert 2.0 * aspect / w / aspect == 2.0 / w;
    FitsWithin(dx, w, s / aspect, 2.0 / w);
    assert dx * s / aspect == dx * (s / aspect);
  }

  lemma {:induction false} SceneFitsClipY(court: Vec2, s: real, dy: real)
    requires CourtShape(court) && s > 0.0
    requires s <= 2.0 / (SceneMax(court).y - SceneMin(court).y)
    requires var h := SceneMax(court).y - SceneMin(court).y; -h / 2.0 <= dy <= h / 2.0
    ensures -1.0 <= dy * s <= 1.0
  {
    var h := SceneMax(court).y - SceneMin(court).y;
    FitsWithin(dy, h, s, 2.0 / h);
  }

  lemma DivMonotone(a: real, b: real, d: real)
    requires a <= b && d > 0.0
    ensures a / d <= b / d
  {
  }

  /** |d| <= n/2 and 0 <= k <= 2/n give |d * k| <= 1. */
  lemma {:induction false} FitsWithin(d: real, n: real, k: real, bound: real)
    requires n > 0.0 && bound == 2.0 / n
    requires -n / 2.0 <= d <= n / 2.0
    requires 0.0 <= k <= bound
    ensures -1.0 <= d * k <= 1.0
  {
    var half := n / 2.0;
    assert half * bound == 1.0;
    MulNonNeg(half - d, k);
    MulNonNeg(half + d, k);
    MulNonNeg(half, bound - k);
    assert half * k <= 1.0;
  }

  /**
   * Between two aspect ratios at which the scene height is the binding limit,
   * the y scale is the same: a wider window only changes the x term.
   */
  lemma YScaleIndependentOfWidth(court: Vec2, a1: real, a2: real)
    requires CourtShape(court) && a1 > 0.0 && a2 > 0.0
    requires 2.0 / (SceneMax(court).y - SceneMin(court).y)
          <= 2.0 * a1 / (SceneMax(court).x - SceneMin(court).x)
    requires 2.0 / (SceneMax(court).y - SceneMin(court).y)
          <= 2.0 * a2 / (SceneMax(court).x - SceneMin(court).x)
    ensures CourtToClip(court, a1).sy == CourtToClip(court, a2).sy
  {
  }

  /** Window pixel (top-left origin, y down) to clip space ([-1, 1]^2, y up), sampling the pixel centre. */
  function WindowToClip(px: int, py: int, width: nat, height: nat): (q: Vec2)
    requires width > 0 && height > 0
    ensures 0 <= px < width ==> -1.0 < q.x < 1.0
    ensures 0 <= py < height ==> -1.0 < q.y < 1.0
  {
    var fx := ((px as real) + 0.5) / (width as real);
    var fy := ((py as real) + 0.5) / (height as real);
    assert 0 <= px < width ==> 0.0 < fx < 1.0 by {
      if 0 <= px < width { UnitFraction((px as real) + 0.5, width as real); }
    }
    assert 0 <= py < height ==> 0.0 < fy < 1.0 by {
      if 0 <= py < height { UnitFraction((py as real) + 0.5, height as real); }
    }
    Vec2(fx * 2.0 - 1.0, fy * -2.0 + 1.0)
  }

  /**
   * The window's "+y is down" becomes clip space's "+y is up"; x keeps its
   * direction.
   */
  lemma {:induction false} WindowToClipOrientation(px1: int, py1: int, px2: int, py2: int, width: nat, height: nat)
    requires width > 0 && height > 0
    ensures px1 < px2 ==> WindowToClip(px1, py1, width, height).x < WindowToClip(px2, py2, width, height).x
    ensures py1 < py2 ==> WindowToClip(px1, py1, width, height).y > WindowToClip(px2, py2, width, height).y
  {
    if px1 < px2 {
      DivStrict((px1 as real) + 0.5, (px2 as real) + 0.5, width as real);
    }
    if py1 < py2 {
      DivStrict((py1 as real) + 0.5, (py2 as real) + 0.5, height as real);
    }
  }

  lemma DivStrict(a: real, b: real, d: real)
    requires a < b && d > 0.0
    ensures a / d < b / d
  {
    var f := a / d;
    var g := b / d;
    assert f * d == a && g * d == b;
    if g <= f {
      MulNonNeg(f - g, d);
    }
  }

  lemma UnitFraction(a: real, b: real)
    requires 0.0 < a < b
    ensures 0.0 < a / b < 1.0
  {
    var f := a / b;
    assert f * b == a;
    if f <= 0.0 {
      MulNonNeg(-f, b);
    }
    if f >= 1.0 {
      MulNonNeg(f - 1.0, b);
    }
  }

  lemma MulNonNeg(x: real, y: real)
    requires x >= 0.0 && y >= 0.0
    ensures x * y >= 0.0
  {
  }
}
